=== FILE: README.md ===
# InLineSQL statement resolution, modelled in Dafny

InLineSQL keeps SQL statements in an XML catalog (`<sql default="…">` holding `<scripts id="…">`
entries) and hands application code the text for the configured database provider. The `SqlScript`
class does this in four steps, and this project models each one as a pure function over an immutable
catalog value:

1. **Provider table** (`Dialects`): `System.Data.SqlClient`, `System.Data.OracleClient` and
   `IBM.Data.Informix` map to a parameter symbol and a script tag (`@`/`mssql`, `:`/`oracle`,
   `@`/`ifx`); any other provider is refused.
2. **Three-tier lookup** (`Resolver`): the entry with the requested id must be unique. Inside it,
   an `sqlblock` wins and yields `common + " " + vendor`. Without a block, the first child named with
   the active tag is used if its text is non-empty. Otherwise the first descendant named with the
   root's `default` tag is used.
3. **Placeholder rewrite** (`Placeholders`): every `@` becomes the provider's symbol, except for
   SqlClient and Informix, whose text passes through unchanged.
4. **Isolation prefix** (`Resolver.Isolate`, `Resolver.GetSqlIsolated`): SqlClient with `ReadUncommitted` gets
   `SET TRANSACTION ISOLATION LEVEL READ UNCOMMITTED;` in front. Every other combination is unchanged.

The catalog (`Catalogs`) is a datatype. The root has an optional `default` tag and a sequence of
`scripts` entries. Each entry has an id and a sequence of children. A child is either a plain element
(name and raw text) or an `sqlblock` holding a sequence of elements. A direct text node and a CDATA
section are the same `text` here. The XPath single-node queries become "first element with this name,
in document order" (`Catalogs.FirstNamed`).

Every exception the resolution logic raises on a catalog whose id and default tag are plain element
names is a `Faults.Fault` value inside a `Result`. These are the
unknown provider, a duplicate id, an undefined id, and four null dereferences: a missing `default`
attribute, a block without `common`, a block without the vendor element, and no default variant.

Each tier has a declarative reading (`Resolver.EntryYields`, `Resolver.Resolves`) written with
"first position" predicates instead of recursion. The resolving functions are proved equal to that
reading in both directions.

Three behaviours of the code are easy to misread:
- An `sqlblock` that lacks an element for the active tag does **not** fall through to the plain
  variants. The code dereferences the missing node, so the model returns `MissingVendor`.
- `common` and the vendor element are looked up across **all** `sqlblock` children of the entry, in
  document order, because the queries are absolute paths.
- An empty first variant for the active tag sends the lookup to the default tag. A later non-empty
  variant with the same tag is not consulted.

## Model

| member | source | states |
|---|---|---|
| Dialects.Initialize | src/InLineSQL/SQLScript.cs:25-46 | exactly the three providers are accepted, each with its (symbol, tag) row; any other name is the `UnsupportedProvider` error |
| Dialects.TagIdentifiesProvider | src/InLineSQL/SQLScript.cs:29-45 | no two supported providers share a script tag |
| Dialects.SymbolIsOneCharacter | src/InLineSQL/SQLScript.cs:29-45 | every supported provider's parameter symbol is a single character |
| Placeholders.ReplaceAll | src/InLineSQL/SQLScript.cs:188 | the literal replace grows the text by (symbol length − 1) per marker; with no marker in the symbol none remains; text without a marker is unchanged |
| Placeholders.ReplaceAllConcat | src/InLineSQL/SQLScript.cs:188 | replacing distributes over concatenation |
| Placeholders.ReplaceAllPointwise | src/InLineSQL/SQLScript.cs:188 | with a one-character symbol, length is kept and each position changes exactly when it held the marker |
| Placeholders.ReplaceAllSelf | src/InLineSQL/SQLScript.cs:188 | replacing the marker by itself is the identity |
| Placeholders.ReplaceAllInverse | src/InLineSQL/SQLScript.cs:188 | replacing `a` by a character `b` absent from the text is undone by replacing `b` by `a` |
| Placeholders.Parse | src/InLineSQL/SQLScript.cs:180-192 | SqlClient and Informix text is returned unchanged; text without `@` is unchanged; otherwise no `@` survives when the symbol has none, and a one-character symbol keeps the length |
| Placeholders.ParseOfInitialized | src/InLineSQL/SQLScript.cs:180-192 | for an initialised engine the exemption holds exactly when the symbol is `@`, so Parse always equals the uniform `@` replacement |
| Placeholders.ParsePointwise | src/InLineSQL/SQLScript.cs:185-189 | for a non-exempt provider with a one-character symbol, every `@` becomes the symbol and nothing else changes |
| Placeholders.InitializedPointwise | src/InLineSQL/SQLScript.cs:180-191 | for every engine the provider switch builds, Parse keeps the length, turns every `@` into the provider's one symbol character and leaves every other character in place |
| Placeholders.ParseOracleExample | src/InLineSQL/SQLScript.cs:185-189 | Oracle turns `id=@id AND x=@x` into `id=:id AND x=:x` |
| Placeholders.ParseJoin | src/InLineSQL/SQLScript.cs:180-192 | parsing `a + " " + b` equals parsing `a` and `b` separately and joining them with one space |
| Placeholders.ParseOracleRoundTrip | src/InLineSQL/SQLScript.cs:185-189 | the Oracle rewrite of text without `:` is undone by turning `:` back into `@` |
| Catalogs.FirstNamed | src/InLineSQL/SQLScript.cs:84-96 | returns the first position with the name, in document order, and nothing exactly when no element has that name |
| Catalogs.TextOfFirst | src/InLineSQL/SQLScript.cs:150-171 | yields the text of the first element with the name, and nothing exactly when none has it |
| Catalogs.ScriptsWithId | src/InLineSQL/SQLScript.cs:71-77 | holds only entries with the id; is empty exactly when no entry has it; has two or more exactly when two entries share it; starts with the first such entry |
| Catalogs.SingleMatchIsUnique | src/InLineSQL/SQLScript.cs:71-77 | a single match is the only entry carrying the id |
| Catalogs.NoBlockDescendantsAreChildren | src/InLineSQL/SQLScript.cs:99-103 | without an `sqlblock`, the descendants the default query searches are exactly the plain children, and there are no block parts |
| Resolver.ComposeBlock | src/InLineSQL/SQLScript.cs:138-179 | no text exactly when the entry has no `sqlblock`; `MissingCommon` exactly when no block part is `common`; `MissingVendor` exactly when `common` exists but no part has the active tag; a text whenever the entry has a block with both a `common` part and an active-tag part, and that text is the first `common` text, one space, and the first vendor text |
| Resolver.BlockTier | src/InLineSQL/SQLScript.cs:142-175 | when the entry has a block, the declarative block tier yields exactly what ComposeBlock returns, and nothing when ComposeBlock fails |
| Resolver.ExplicitTier | src/InLineSQL/SQLScript.cs:84-96 | a non-empty first child with the active tag makes the explicit tier apply, and that tier yields exactly its text |
| Resolver.ExplicitTierSkipped | src/InLineSQL/SQLScript.cs:84-99 | when the first child with the active tag is absent or empty, the explicit tier does not apply |
| Resolver.DefaultTier | src/InLineSQL/SQLScript.cs:99-111 | the default tier yields exactly the text of the first descendant with the default tag, and nothing when there is none |
| Resolver.ResolveEntry | src/InLineSQL/SQLScript.cs:80-112 | succeeds with exactly the text the declarative three-tier reading yields; fails only with a block or default-variant error, `MissingCommon` exactly when the entry has a block without a `common` part, `MissingVendor` exactly when the block has `common` but no active-tag part, and `MissingDefaultVariant` exactly when there is no block, the explicit tier does not apply, and no descendant has the default tag |
| Resolver.RawSql | src/InLineSQL/SQLScript.cs:69-112 | duplicate error exactly when two entries share the id; undefined error exactly when none has it; missing-attribute error exactly when the entry is unique but the root has no default; for a unique entry under a root with a default, exactly the entry's own result, so its block and default-variant errors surface unchanged; success exactly with the declaratively resolved text |
| Resolver.GetSql | src/InLineSQL/SQLScript.cs:69-116 | duplicate, undefined and missing-attribute errors exactly when their conditions hold, for every provider; every other error is the raw lookup's error unchanged; every success is Parse applied to the raw text of whichever tier resolved |
| Resolver.Isolate | src/InLineSQL/SQLScript.cs:119-136 | the resolved SQL always ends the output; the output differs from it exactly for SqlClient with ReadUncommitted, and then it is the read-uncommitted statement followed by the SQL |
| Resolver.GetSqlIsolated | src/InLineSQL/SQLScript.cs:117-137 | fails exactly when GetSql fails, with the same error; on success its text is GetSql's text after the isolation step |
| ResolutionProperties.ResolvesIsFunctional | src/InLineSQL/SQLScript.cs:69-116 | a lookup resolves to at most one raw text |
| ResolutionProperties.BlockOverridesPlainChild | src/InLineSQL/SQLScript.cs:82-97 | once an entry has an `sqlblock`, inserting any plain child anywhere leaves the result unchanged |
| ResolutionProperties.BlockWithoutVendorIsError | src/InLineSQL/SQLScript.cs:154-171 | a block with `common` but no vendor element is `MissingVendor`, never a fall-through |
| ResolutionProperties.FirstVariantWins | src/InLineSQL/SQLScript.cs:84-96 | without a block, the first child with the active tag and non-empty text is the result, whatever follows it |
| ResolutionProperties.EmptyVariantFallsBackToDefault | src/InLineSQL/SQLScript.cs:84-111 | an empty first child for the active tag yields the first default-tag descendant, or `MissingDefaultVariant` when none exists, even if a later child has the active tag |
| ResolutionProperties.DefaultOnlyEntry | src/InLineSQL/SQLScript.cs:99-111 | an entry holding only a default-tag variant yields it for any other active tag |
| ResolutionProperties.NoUsableVariant | src/InLineSQL/SQLScript.cs:99-110 | an entry with neither the active nor the default tag fails with `MissingDefaultVariant` |
| ResolutionProperties.LookupWithoutUsableVariant | src/InLineSQL/SQLScript.cs:69-110 | at the public lookup, a unique entry without a block whose children carry neither the active nor the default tag fails with `MissingDefaultVariant` |
| ResolutionProperties.BlockResultTranslatesPieces | src/InLineSQL/SQLScript.cs:142-175 | GetSql of a block entry is the translated common text, one space, and the translated vendor text |

## Left out

- Loading the catalog from a manifest resource stream and `XmlDocument.Load` (src/InLineSQL/SQLScript.cs:47-68): this is I/O and reflection. The model takes an already-built `Catalog` value.
- The `ConfigurationManager` read of the active provider (src/InLineSQL/SQLScript.cs:27, 59): this is external configuration. The provider name is a parameter of `Dialects.Initialize`.
- `Dispose` and the stream lifetime (src/InLineSQL/SQLScript.cs:193-213): this is resource management with no logic.
- src/InLineSQL/SqlScriptAttribute.cs and src/InlineSQL.SampleDataAccessLayer/UserConnect.cs: an attribute data holder and sample code that calls `GetSql`; neither has resolution logic.
- XPath evaluation itself: the queries are modelled as first-match functions over the datatype. The id and the root's `default` value are pasted into XPath strings unescaped (src/InLineSQL/SQLScript.cs:71-72, 101-103, 144). Depending on their characters, the query is either malformed, which throws an XPath exception that has no `Fault`, or selects other nodes than the model's literal comparison does. For example, the id `x' or '1'='1` matches every entry, `default="*"` matches a descendant of any name, and `default="mssql|oracle"` matches every `mssql` element in the document. The model treats both values as literal names.
- The root element's name: the catalog is assumed to be rooted at `sql`. Root children other than `scripts` entries, and `scripts` entries nested below other elements, are not represented.
- Tree depth: plain elements and block parts hold text only. Elements nested inside them, and the case where an element's first child is a comment or an element (the original would then read that node's value, or null), are not represented.
- Resolver.ResolveEntry: the `sqlblock` element itself is not among the descendants the default query searches. This matters only when the default tag is `sqlblock` and the entry has a block, and the default tier is never reached when a block exists.
- Exception types and messages: each becomes a `Fault` constructor. The three null dereferences are named after the missing node.

=== FILE: catalogs.dfy ===
/** The statement catalog: an already-loaded `<sql default=…>` document and the node queries the resolver runs on it. */
module Catalogs {
  import opened Results

  /** An element whose content is raw SQL; a direct text node and a CDATA section both become `text`. */
  datatype Element = Element(name: string, text: string)

  /** A child of a `scripts` entry: a plain element, or an `sqlblock` holding `common` and vendor elements. */
  datatype Node = Plain(elem: Element) | SqlBlock(parts: seq<Element>)

  /** One `<scripts id=…>` element and its children in document order. */
  datatype Script = Script(id: string, children: seq<Node>)

  /** The root element: its `default` attribute, if present, and its `scripts` children in document order. */
  datatype Catalog = Catalog(defaultTag: Option<string>, scripts: seq<Script>)

  const BlockName: string := "sqlblock"
  const CommonName: string := "common"

  /** The element name of a child node. */
  function NameOf(n: Node): string
  {
    match n
    case Plain(e) => e.name
    case SqlBlock(_) => BlockName
  }

  /** Whether some child is named `sqlblock`; a plain element of that name is an `sqlblock` without parts. */
  predicate HasBlock(children: seq<Node>)
  {
    exists i :: 0 <= i < |children| && NameOf(children[i]) == BlockName
  }

  /** The element children of a node. */
  function PartsOf(n: Node): seq<Element>
  {
    match n
    case Plain(_) => []
    case SqlBlock(ps) => ps
  }

  /** The elements `sqlblock/x` ranges over: the parts of every block child, in document order. */
  function BlockContents(children: seq<Node>): seq<Element>
  {
    if |children| == 0 then [] else PartsOf(children[0]) + BlockContents(children[1..])
  }

  /** The plain element children, in document order. */
  function ChildElements(children: seq<Node>): seq<Element>
  {
    if |children| == 0 then []
    else (match children[0] case Plain(e) => [e] case SqlBlock(_) => []) + ChildElements(children[1..])
  }

  /** The text-holding descendants of an entry in document order: plain children and block parts. */
  function Descendants(children: seq<Node>): seq<Element>
  {
    if |children| == 0 then []
    else (match children[0] case Plain(e) => [e] case SqlBlock(ps) => ps) + Descendants(children[1..])
  }

  /** `i` is the position of the first element of `es` called `name`. */
  predicate IsFirstNamed(es: seq<Element>, name: string, i: int)
  {
    && 0 <= i < |es|
    && es[i].name == name
    && forall j :: 0 <= j < i ==> es[j].name != name
  }

  /** The position of the first element called `name`, in document order (a single-node query). */
  function FirstNamed(es: seq<Element>, name: string): (r: Option<nat>)
    ensures r.None? <==> forall j :: 0 <= j < |es| ==> es[j].name != name
    ensures r.Some? ==> IsFirstNamed(es, name, r.value)
  {
    if |es| == 0 then None
    else if es[0].name == name then Some(0)
    else match FirstNamed(es[1..], name)
      case None => None
      case Some(k) => Some(k + 1)
  }

  /** At most one position is the first one with a given name. */
  lemma FirstNamedUnique(es: seq<Element>, name: string, i: int, j: int)
    requires IsFirstNamed(es, name, i) && IsFirstNamed(es, name, j)
    ensures i == j
  {
  }

  /** The text of the first element called `name`, if there is one. */
  function TextOfFirst(es: seq<Element>, name: string): (r: Option<string>)
    ensures r.None? <==> forall j :: 0 <= j < |es| ==> es[j].name != name
    ensures r.Some? ==> exists i :: IsFirstNamed(es, name, i) && r.value == es[i].text
  {
    match FirstNamed(es, name)
    case None => None
    case Some(i) => Some(es[i].text)
  }

  /** The `scripts` entries carrying `id`, in document order (the query `/sql/scripts[@id=…]`). */
  function ScriptsWithId(scripts: seq<Script>, id: string): (r: seq<Script>)
    ensures forall k :: 0 <= k < |r| ==> r[k].id == id
    ensures |r| == 0 <==> forall k :: 0 <= k < |scripts| ==> scripts[k].id != id
    ensures |r| >= 2 <==> exists k, m :: 0 <= k < m < |scripts| && scripts[k].id == id && scripts[m].id == id
    ensures |r| > 0 ==> exists k :: 0 <= k < |scripts| && scripts[k] == r[0] && forall m :: 0 <= m < k ==> scripts[m].id != id
  {
    if |scripts| == 0 then []
    else
      var rest := ScriptsWithId(scripts[1..], id);
      if scripts[0].id == id then
        assert |rest| > 0 ==> scripts[1..][0] == scripts[1];
        [scripts[0]] + rest
      else
        rest
  }

  /** Position `k` holds the only entry carrying `id`. */
  ghost predicate UniqueEntry(scripts: seq<Script>, id: string, k: int)
  {
    && 0 <= k < |scripts|
    && scripts[k].id == id
    && forall m :: 0 <= m < |scripts| && m != k ==> scripts[m].id != id
  }

  /** A query that returns exactly one entry has found the only entry carrying the id. */
  lemma SingleMatchIsUnique(scripts: seq<Script>, id: string)
    requires |ScriptsWithId(scripts, id)| == 1
    ensures exists k :: UniqueEntry(scripts, id, k) && scripts[k] == ScriptsWithId(scripts, id)[0]
  {
    var r := ScriptsWithId(scripts, id);
    var k :| 0 <= k < |scripts| && scripts[k] == r[0] && forall m :: 0 <= m < k ==> scripts[m].id != id;
    assert UniqueEntry(scripts, id, k);
  }

  /** Without an `sqlblock` child, every child is a plain element, so the children and the descendants coincide. */
  lemma {:induction false} NoBlockDescendantsAreChildren(children: seq<Node>)
    requires !HasBlock(children)
    ensures Descendants(children) == ChildElements(children)
    ensures BlockContents(children) == []
  {
    if |children| > 0 {
      assert NameOf(children[0]) != BlockName;
      assert !HasBlock(children[1..]) by {
        forall i | 0 <= i < |children[1..]|
          ensures NameOf(children[1..][i]) != BlockName
        {
          assert children[1..][i] == children[i + 1];
        }
      }
      NoBlockDescendantsAreChildren(children[1..]);
    }
  }

  /** The block parts of a concatenation are the parts of each half. */
  lemma {:induction false} BlockContentsConcat(a: seq<Node>, b: seq<Node>)
    ensures BlockContents(a + b) == BlockContents(a) + BlockContents(b)
  {
    if |a| > 0 {
      assert (a + b)[1..] == a[1..] + b;
      BlockContentsConcat(a[1..], b);
    } else {
      assert a + b == b;
    }
  }

  /** The plain children of a concatenation are the plain children of each half. */
  lemma {:induction false} ChildElementsConcat(a: seq<Node>, b: seq<Node>)
    ensures ChildElements(a + b) == ChildElements(a) + ChildElements(b)
  {
    if |a| > 0 {
      assert (a + b)[1..] == a[1..] + b;
      ChildElementsConcat(a[1..], b);
    } else {
      assert a + b == b;
    }
  }

  /** A name no child carries is carried by no plain child element either. */
  lemma {:induction false} ChildElementsAvoidName(children: seq<Node>, name: string)
    requires forall i :: 0 <= i < |children| ==> NameOf(children[i]) != name
    ensures forall j :: 0 <= j < |ChildElements(children)| ==> ChildElements(children)[j].name != name
  {
    if |children| > 0 {
      assert NameOf(children[0]) != name;
      ChildElementsAvoidName(children[1..], name);
    }
  }
}

=== FILE: dialects.dfy ===
/** The provider table: which database providers are supported, with their parameter symbol and script tag. */
module Dialects {
  import opened Results
  import opened Faults

  const SqlClient: string := "System.Data.SqlClient"
  const OracleClient: string := "System.Data.OracleClient"
  const Informix: string := "IBM.Data.Informix"

  /** The providers the table knows about. */
  const Supported: set<string> := {SqlClient, OracleClient, Informix}

  /** The parameter symbol a provider's SQL uses and the element name its statements are stored under. */
  datatype Dialect = Dialect(symbol: string, tag: string)

  /** The state a resolver holds after initialisation: the provider name and the dialect chosen for it. */
  datatype Engine = Engine(provider: string, dialect: Dialect)

  /** Chooses the dialect for a provider name; every name outside the three-row table is refused. */
  function Initialize(provider: string): (r: Result<Engine, Fault>)
    ensures r.Ok? <==> provider in Supported
    ensures r.Ok? ==> r.value.provider == provider
    ensures r.Err? ==> r.error == UnsupportedProvider(provider)
    ensures provider == SqlClient ==> r.Ok? && r.value.dialect == Dialect("@", "mssql")
    ensures provider == OracleClient ==> r.Ok? && r.value.dialect == Dialect(":", "oracle")
    ensures provider == Informix ==> r.Ok? && r.value.dialect == Dialect("@", "ifx")
  {
    if provider == SqlClient then Ok(Engine(provider, Dialect("@", "mssql")))
    else if provider == OracleClient then Ok(Engine(provider, Dialect(":", "oracle")))
    else if provider == Informix then Ok(Engine(provider, Dialect("@", "ifx")))
    else Err(UnsupportedProvider(provider))
  }

  /** No two supported providers share a script tag, so the tag identifies the provider. */
  lemma TagIdentifiesProvider(p: string, q: string)
    requires Initialize(p).Ok? && Initialize(q).Ok?
    requires Initialize(p).value.dialect.tag == Initialize(q).value.dialect.tag
    ensures p == q
  {
  }

  /** Every supported provider uses a one-character parameter symbol. */
  lemma SymbolIsOneCharacter(p: string)
    requires Initialize(p).Ok?
    ensures |Initialize(p).value.dialect.symbol| == 1
  {
  }
}

=== FILE: faults.dfy ===
/** The ways a statement lookup can fail, one per exception the resolver can raise. */
module Faults {

  datatype Fault =
      /** The configured provider has no row in the dialect table ("Database not implemented"). */
    | UnsupportedProvider(provider: string)
      /** More than one `scripts` entry carries the requested id. */
    | DuplicateScriptId(id: string)
      /** No `scripts` entry carries the requested id. */
    | UndefinedScriptId(id: string)
      /** The catalog root has no `default` attribute; the original dereferences null. */
    | MissingDefaultAttribute
      /** The entry has an `sqlblock` but no `common` element inside it; the original dereferences null. */
    | MissingCommon(id: string)
      /** The entry has an `sqlblock` but no element for the active tag inside it; the original dereferences null. */
    | MissingVendor(id: string, tag: string)
      /** No explicit text and no element named with the default tag; the original dereferences null. */
    | MissingDefaultVariant(id: string, defaultTag: string)
}

=== FILE: placeholders.dfy ===
/** Rewriting of the canonical `@` parameter marker into the active provider's symbol. */
module Placeholders {
  import opened Dialects

  /** The marker catalog authors write in front of every parameter name. */
  const Marker: char := '@'

  /** Number of occurrences of `c` in `s`. */
  function Count(s: string, c: char): nat
  {
    if |s| == 0 then 0 else (if s[0] == c then 1 else 0) + Count(s[1..], c)
  }

  /** Literal replacement of every occurrence of the character `c` by the string `sym`, left to right. */
  function ReplaceAll(s: string, c: char, sym: string): (r: string)
    ensures |r| == |s| + Count(s, c) * (|sym| - 1)
    ensures c !in sym ==> c !in r
    ensures c !in s ==> r == s
  {
    if |s| == 0 then []
    else
      var rest := ReplaceAll(s[1..], c, sym);
      var n := Count(s[1..], c);
      assert |rest| == |s| - 1 + n * (|sym| - 1);
      if s[0] == c then
        assert Count(s, c) == n + 1;
        assert (n + 1) * (|sym| - 1) == n * (|sym| - 1) + (|sym| - 1);
        sym + rest
      else
        assert Count(s, c) == n;
        [s[0]] + rest
  }

  /** Replacement works piece by piece: it distributes over concatenation. */
  lemma {:induction false} ReplaceAllConcat(a: string, b: string, c: char, sym: string)
    ensures ReplaceAll(a + b, c, sym) == ReplaceAll(a, c, sym) + ReplaceAll(b, c, sym)
  {
    if |a| == 0 {
      assert a + b == b;
    } else {
      assert (a + b)[1..] == a[1..] + b;
      ReplaceAllConcat(a[1..], b, c, sym);
    }
  }

  /** With a one-character symbol every position keeps its place and only markers change. */
  lemma {:induction false} ReplaceAllPointwise(s: string, c: char, d: char)
    ensures |ReplaceAll(s, c, [d])| == |s|
    ensures forall i :: 0 <= i < |s| ==> ReplaceAll(s, c, [d])[i] == (if s[i] == c then d else s[i])
  {
    if |s| > 0 {
      ReplaceAllPointwise(s[1..], c, d);
    }
  }

  /** Replacing a character by itself changes nothing. */
  lemma {:induction false} ReplaceAllSelf(s: string, c: char)
    ensures ReplaceAll(s, c, [c]) == s
  {
    if |s| > 0 {
      ReplaceAllSelf(s[1..], c);
    }
  }

  /** Replacing `a` by a character `b` absent from the text is undone by replacing `b` by `a`. */
  lemma {:induction false} ReplaceAllInverse(s: string, a: char, b: char)
    requires a != b
    requires b !in s
    ensures ReplaceAll(ReplaceAll(s, a, [b]), b, [a]) == s
  {
    if |s| > 0 {
      assert b !in s[1..];
      ReplaceAllInverse(s[1..], a, b);
      ReplaceAllConcat([if s[0] == a then b else s[0]], ReplaceAll(s[1..], a, [b]), b, [a]);
    }
  }

  /** Providers whose native symbol already is the marker; their text is passed through untouched. */
  predicate IsExempt(provider: string)
  {
    provider == SqlClient || provider == Informix
  }

  /** Rewrites the parameter markers of a statement for the engine's provider. */
  function Parse(e: Engine, text: string): (r: string)
    ensures IsExempt(e.provider) ==> r == text
    ensures Marker !in text ==> r == text
    ensures !IsExempt(e.provider) && Marker !in e.dialect.symbol ==> Marker !in r
    ensures |e.dialect.symbol| == 1 ==> |r| == |text|
  {
    if IsExempt(e.provider) then text else ReplaceAll(text, Marker, e.dialect.symbol)
  }

  /** For every initialised engine, Parse is the uniform marker replacement: the exemption is exactly
      the set of providers whose symbol already is the marker, where replacing would change nothing. */
  lemma {:induction false} ParseOfInitialized(provider: string, text: string)
    requires Initialize(provider).Ok?
    ensures IsExempt(provider) <==> Initialize(provider).value.dialect.symbol == [Marker]
    ensures Parse(Initialize(provider).value, text) == ReplaceAll(text, Marker, Initialize(provider).value.dialect.symbol)
  {
    if IsExempt(provider) {
      ReplaceAllSelf(text, Marker);
    }
  }

  /** Each marker becomes the symbol and nothing else moves, for any one-character symbol. */
  lemma ParsePointwise(e: Engine, text: string)
    requires !IsExempt(e.provider)
    requires |e.dialect.symbol| == 1
    ensures |Parse(e, text)| == |text|
    ensures forall i :: 0 <= i < |text| ==>
      Parse(e, text)[i] == (if text[i] == Marker then e.dialect.symbol[0] else text[i])
  {
    assert e.dialect.symbol == [e.dialect.symbol[0]];
    ReplaceAllPointwise(text, Marker, e.dialect.symbol[0]);
  }

  /** For every initialised engine, Parse keeps the length and turns each marker into the provider's
      symbol character, leaving every other character in place. */
  lemma InitializedPointwise(provider: string, text: string)
    requires Initialize(provider).Ok?
    ensures var e := Initialize(provider).value;
      |Parse(e, text)| == |text|
      && forall i :: 0 <= i < |text| ==> Parse(e, text)[i] == (if text[i] == Marker then e.dialect.symbol[0] else text[i])
  {
    var e := Initialize(provider).value;
    SymbolIsOneCharacter(provider);
    if !IsExempt(provider) {
      ParsePointwise(e, text);
    }
  }

  /** Reads off a fifteen-character string from its characters. Kept apart from the replace: comparing a
      string literal with a result of the recursive ReplaceAll directly is too costly for the verifier,
      so the expected text is rebuilt character by character in a context where ReplaceAll is absent. */
  lemma SpellExampleResult(r: string)
    requires |r| == 15
    requires r[0] == 'i' && r[1] == 'd' && r[2] == '=' && r[3] == ':' && r[4] == 'i'
    requires r[5] == 'd' && r[6] == ' ' && r[7] == 'A' && r[8] == 'N' && r[9] == 'D'
    requires r[10] == ' ' && r[11] == 'x' && r[12] == '=' && r[13] == ':' && r[14] == 'x'
    ensures r == "id=:id AND x=:x"
  {
  }

  /** Replacing `@` by `:` in the example statement, character by character. */
  lemma ReplaceExample(text: string)
    requires text == "id=@id AND x=@x"
    ensures ReplaceAll(text, Marker, ":") == "id=:id AND x=:x"
  {
    ReplaceAllPointwise(text, Marker, ':');
    var r := ReplaceAll(text, Marker, [':']);
    assert r[0] == 'i' && r[1] == 'd' && r[2] == '=' && r[3] == ':' && r[4] == 'i';
    assert r[5] == 'd' && r[6] == ' ' && r[7] == 'A' && r[8] == 'N' && r[9] == 'D';
    assert r[10] == ' ' && r[11] == 'x' && r[12] == '=' && r[13] == ':' && r[14] == 'x';
    SpellExampleResult(r);
  }

  /** The Oracle engine turns `@id` parameters into `:id` parameters. */
  lemma ParseOracleExample(text: string)
    requires text == "id=@id AND x=@x"
    ensures Initialize(OracleClient).Ok?
    ensures Parse(Initialize(OracleClient).value, text) == "id=:id AND x=:x"
  {
    ReplaceExample(text);
  }

  /** Parsing a composed statement is parsing its pieces: the joining space is never rewritten. */
  lemma ParseJoin(e: Engine, a: string, b: string)
    ensures Parse(e, a + " " + b) == Parse(e, a) + " " + Parse(e, b)
  {
    if !IsExempt(e.provider) {
      ReplaceAllConcat(a + " ", b, Marker, e.dialect.symbol);
      ReplaceAllConcat(a, " ", Marker, e.dialect.symbol);
    }
  }

  /** The Oracle rewrite loses nothing: on text without `:` it is undone by turning `:` back into `@`. */
  lemma ParseOracleRoundTrip(text: string)
    requires ':' !in text
    ensures Initialize(OracleClient).Ok?
    ensures ReplaceAll(Parse(Initialize(OracleClient).value, text), ':', [Marker]) == text
  {
    ReplaceAllInverse(text, Marker, ':');
  }
}

=== FILE: resolution_properties.dfy ===
/** Properties of statement resolution that relate several lookups or catalogs. */
module ResolutionProperties {
  import opened Results
  import opened Faults
  import opened Dialects
  import opened Catalogs
  import opened Placeholders
  import opened Resolver

  /** The three tiers never disagree: a lookup resolves to at most one raw text. */
  lemma ResolvesIsFunctional(c: Catalog, tag: string, id: string, a: string, b: string)
    requires Resolves(c, tag, id, a) && Resolves(c, tag, id, b)
    ensures a == b
  {
    assert RawSql(c, tag, id) == Ok(a);
  }

  /** Once an entry has an `sqlblock`, adding a plain child anywhere, whatever its name and text,
      leaves the result unchanged: the block takes precedence over every plain variant. */
  lemma BlockOverridesPlainChild(id: string, pre: seq<Node>, post: seq<Node>, n: Element, tag: string, defaultTag: string)
    requires HasBlock(pre + post)
    ensures ResolveEntry(Script(id, pre + [Plain(n)] + post), tag, defaultTag)
         == ResolveEntry(Script(id, pre + post), tag, defaultTag)
  {
    var with := pre + [Plain(n)] + post;
    assert BlockContents(with) == BlockContents(pre + post) by {
      BlockContentsConcat(pre, post);
      BlockContentsConcat(pre + [Plain(n)], post);
      BlockContentsConcat(pre, [Plain(n)]);
      assert BlockContents([Plain(n)]) == [];
    }
    assert HasBlock(with) by {
      var i :| 0 <= i < |pre + post| && NameOf((pre + post)[i]) == BlockName;
      if i < |pre| {
        assert with[i] == (pre + post)[i];
      } else {
        assert with[i + 1] == (pre + post)[i];
      }
    }
    assert ComposeBlock(id, with, tag) == ComposeBlock(id, pre + post, tag);
  }

  /** An `sqlblock` without an element for the active tag is an error, not a fall-through to the plain
      variants, even when a non-empty plain child for that tag exists. */
  lemma BlockWithoutVendorIsError(id: string, children: seq<Node>, tag: string, defaultTag: string)
    requires HasBlock(children)
    requires exists i :: 0 <= i < |BlockContents(children)| && BlockContents(children)[i].name == CommonName
    requires forall j :: 0 <= j < |BlockContents(children)| ==> BlockContents(children)[j].name != tag
    ensures ResolveEntry(Script(id, children), tag, defaultTag) == Err(MissingVendor(id, tag))
  {
  }

  /** Without a block, the first child named with the active tag decides; children after it, including
      other children with the same tag, never affect the result. */
  lemma FirstVariantWins(id: string, pre: seq<Node>, t: string, post: seq<Node>, tag: string, defaultTag: string)
    requires forall i :: 0 <= i < |pre| ==> NameOf(pre[i]) != tag
    requires !HasBlock(pre + [Plain(Element(tag, t))] + post)
    requires t != ""
    ensures ResolveEntry(Script(id, pre + [Plain(Element(tag, t))] + post), tag, defaultTag) == Ok(t)
  {
    var children := pre + [Plain(Element(tag, t))] + post;
    var plain := ChildElements(children);
    ChildElementsConcat(pre + [Plain(Element(tag, t))], post);
    ChildElementsConcat(pre, [Plain(Element(tag, t))]);
    ChildElementsAvoidName(pre, tag);
    var k := |ChildElements(pre)|;
    assert plain[k] == Element(tag, t);
    assert IsFirstNamed(plain, tag, k);
    assert EntryYields(children, tag, defaultTag, t);
  }

  /** Without a block, an empty first child for the active tag sends resolution to the default tag,
      even when a later child with the active tag holds text. */
  lemma EmptyVariantFallsBackToDefault(id: string, pre: seq<Node>, post: seq<Node>, tag: string, defaultTag: string)
    requires forall i :: 0 <= i < |pre| ==> NameOf(pre[i]) != tag
    requires !HasBlock(pre + [Plain(Element(tag, ""))] + post)
    ensures var all := Descendants(pre + [Plain(Element(tag, ""))] + post);
      forall i :: IsFirstNamed(all, defaultTag, i) ==>
        ResolveEntry(Script(id, pre + [Plain(Element(tag, ""))] + post), tag, defaultTag) == Ok(all[i].text)
    ensures var all := Descendants(pre + [Plain(Element(tag, ""))] + post);
      (forall i :: 0 <= i < |all| ==> all[i].name != defaultTag) ==>
        ResolveEntry(Script(id, pre + [Plain(Element(tag, ""))] + post), tag, defaultTag)
          == Err(MissingDefaultVariant(id, defaultTag))
  {
    var children := pre + [Plain(Element(tag, ""))] + post;
    var plain := ChildElements(children);
    ChildElementsConcat(pre + [Plain(Element(tag, ""))], post);
    ChildElementsConcat(pre, [Plain(Element(tag, ""))]);
    ChildElementsAvoidName(pre, tag);
    var k := |ChildElements(pre)|;
    assert plain[k] == Element(tag, "");
    assert IsFirstNamed(plain, tag, k);
    forall i | IsFirstNamed(plain, tag, i)
      ensures plain[i].text == ""
    {
      FirstNamedUnique(plain, tag, i, k);
    }
  }

  /** An entry holding only a variant for the default tag yields that variant for any other active tag. */
  lemma DefaultOnlyEntry(id: string, t: string, tag: string, defaultTag: string)
    requires tag != defaultTag
    requires defaultTag != BlockName
    ensures ResolveEntry(Script(id, [Plain(Element(defaultTag, t))]), tag, defaultTag) == Ok(t)
  {
    var children := [Plain(Element(defaultTag, t))];
    assert Descendants(children) == [Element(defaultTag, t)];
    assert ChildElements(children) == [Element(defaultTag, t)];
    assert IsFirstNamed(Descendants(children), defaultTag, 0);
    assert EntryYields(children, tag, defaultTag, t);
  }

  /** Without a block, an entry none of whose children carries the active or the default tag fails. */
  lemma NoUsableVariant(id: string, children: seq<Node>, tag: string, defaultTag: string)
    requires !HasBlock(children)
    requires forall i :: 0 <= i < |children| ==> NameOf(children[i]) != tag && NameOf(children[i]) != defaultTag
    ensures ResolveEntry(Script(id, children), tag, defaultTag) == Err(MissingDefaultVariant(id, defaultTag))
  {
    NoBlockDescendantsAreChildren(children);
    ChildElementsAvoidName(children, tag);
    ChildElementsAvoidName(children, defaultTag);
  }

  /** At the public lookup: a unique entry without a block, none of whose children carries the active
      or the default tag, fails with the missing default variant. */
  lemma LookupWithoutUsableVariant(e: Engine, c: Catalog, id: string, k: int)
    requires c.defaultTag.Some?
    requires UniqueEntry(c.scripts, id, k)
    requires !HasBlock(c.scripts[k].children)
    requires forall i :: 0 <= i < |c.scripts[k].children| ==>
      NameOf(c.scripts[k].children[i]) != e.dialect.tag && NameOf(c.scripts[k].children[i]) != c.defaultTag.value
    ensures GetSql(e, c, id) == Err(MissingDefaultVariant(id, c.defaultTag.value))
  {
    NoUsableVariant(id, c.scripts[k].children, e.dialect.tag, c.defaultTag.value);
    assert c.scripts[k] == Script(id, c.scripts[k].children);
  }

  /** The composed block is translated piece by piece: the result is the translated common text,
      one space, and the translated vendor text. */
  lemma BlockResultTranslatesPieces(e: Engine, c: Catalog, id: string, k: int, i: int, j: int)
    requires c.defaultTag.Some?
    requires UniqueEntry(c.scripts, id, k)
    requires HasBlock(c.scripts[k].children)
    requires IsFirstNamed(BlockContents(c.scripts[k].children), CommonName, i)
    requires IsFirstNamed(BlockContents(c.scripts[k].children), e.dialect.tag, j)
    ensures var parts := BlockContents(c.scripts[k].children);
      GetSql(e, c, id) == Ok(Parse(e, parts[i].text) + " " + Parse(e, parts[j].text))
  {
    var parts := BlockContents(c.scripts[k].children);
    assert EntryYields(c.scripts[k].children, e.dialect.tag, c.defaultTag.value, parts[i].text + " " + parts[j].text);
    assert Resolves(c, e.dialect.tag, id, parts[i].text + " " + parts[j].text);
    ParseJoin(e, parts[i].text, parts[j].text);
  }
}

=== FILE: resolver.dfy ===
/** Statement resolution: from a script id to the SQL text for the engine's provider. */
module Resolver {
  import opened Results
  import opened Faults
  import opened Dialects
  import opened Catalogs
  import opened Placeholders

  /** The transaction isolation levels a caller can ask for. */
  datatype IsolationLevel =
    | Unspecified | Chaos | ReadUncommitted | ReadCommitted | RepeatableRead | Serializable | Snapshot

  const ReadUncommittedPrefix: string := "SET TRANSACTION ISOLATION LEVEL READ UNCOMMITTED;"

  /** Block tier, read declaratively: `raw` is the first `common` part, one space, and the first part
      named with the active tag. */
  ghost predicate BlockYields(children: seq<Node>, tag: string, raw: string)
  {
    var parts := BlockContents(children);
    exists i, j :: IsFirstNamed(parts, CommonName, i) && IsFirstNamed(parts, tag, j)
      && raw == parts[i].text + " " + parts[j].text
  }

  /** The explicit tier applies: the first plain child named with the active tag has non-empty text. */
  ghost predicate ExplicitApplies(children: seq<Node>, tag: string)
  {
    var plain := ChildElements(children);
    exists i :: IsFirstNamed(plain, tag, i) && plain[i].text != ""
  }

  /** Explicit tier, read declaratively: `raw` is the text of the first plain child named with the active tag. */
  ghost predicate ExplicitYields(children: seq<Node>, tag: string, raw: string)
  {
    var plain := ChildElements(children);
    exists i :: IsFirstNamed(plain, tag, i) && raw == plain[i].text
  }

  /** Default tier, read declaratively: `raw` is the text of the first descendant named with the default tag. */
  ghost predicate DefaultYields(children: seq<Node>, defaultTag: string, raw: string)
  {
    var all := Descendants(children);
    exists i :: IsFirstNamed(all, defaultTag, i) && raw == all[i].text
  }

  /** Declarative reading of the three tiers inside one entry: the raw text `raw` is what the entry
      yields for the active tag, given the catalog's default tag. */
  ghost predicate EntryYields(children: seq<Node>, tag: string, defaultTag: string, raw: string)
  {
    if HasBlock(children) then BlockYields(children, tag, raw)
    else if ExplicitApplies(children, tag) then ExplicitYields(children, tag, raw)
    else DefaultYields(children, defaultTag, raw)
  }

  /** Declarative reading of a whole lookup: exactly one entry carries `id`, the root declares a
      default tag, and that entry yields `raw`. */
  ghost predicate Resolves(c: Catalog, tag: string, id: string, raw: string)
  {
    && c.defaultTag.Some?
    && exists k :: UniqueEntry(c.scripts, id, k) && EntryYields(c.scripts[k].children, tag, c.defaultTag.value, raw)
  }

  /** The entry has a block, but no block part is named `common`. */
  predicate CommonMissing(children: seq<Node>)
  {
    var parts := BlockContents(children);
    HasBlock(children) && forall i :: 0 <= i < |parts| ==> parts[i].name != CommonName
  }

  /** The entry has a block with a `common` part, but no block part is named with the active tag. */
  predicate VendorMissing(children: seq<Node>, tag: string)
  {
    var parts := BlockContents(children);
    && HasBlock(children)
    && (exists i :: 0 <= i < |parts| && parts[i].name == CommonName)
    && forall j :: 0 <= j < |parts| ==> parts[j].name != tag
  }

  /** The composed-block tier: no text when the entry has no `sqlblock`; otherwise the first `common`
      part, one space and the first part named with the active tag, where a missing part is an error. */
  function ComposeBlock(id: string, children: seq<Node>, tag: string): (r: Result<Option<string>, Fault>)
    ensures r == Ok(None) <==> !HasBlock(children)
    ensures r == Err(MissingCommon(id)) <==> CommonMissing(children)
    ensures r == Err(MissingVendor(id, tag)) <==> VendorMissing(children, tag)
    ensures var parts := BlockContents(children);
      r.Ok? && r.value.Some? ==>
        exists i, j :: IsFirstNamed(parts, CommonName, i) && IsFirstNamed(parts, tag, j)
          && r.value.value == parts[i].text + " " + parts[j].text
    ensures var parts := BlockContents(children);
      (&& HasBlock(children)
       && (exists i :: 0 <= i < |parts| && parts[i].name == CommonName)
       && (exists j :: 0 <= j < |parts| && parts[j].name == tag))
      ==> r.Ok? && r.value.Some?
  {
    if !HasBlock(children) then Ok(None)
    else
      var parts := BlockContents(children);
      match TextOfFirst(parts, CommonName)
      case None => Err(MissingCommon(id))
      case Some(common) =>
        match TextOfFirst(parts, tag)
        case None => Err(MissingVendor(id, tag))
        case Some(vendor) => Ok(Some(common + " " + vendor))
  }

  /** When the explicit tier applies, it yields exactly the text of the first child with the active tag. */
  lemma ExplicitTier(children: seq<Node>, tag: string, k: nat)
    requires IsFirstNamed(ChildElements(children), tag, k)
    requires ChildElements(children)[k].text != ""
    ensures ExplicitApplies(children, tag)
    ensures ExplicitYields(children, tag, ChildElements(children)[k].text)
    ensures forall raw :: ExplicitYields(children, tag, raw) ==> raw == ChildElements(children)[k].text
  {
    var plain := ChildElements(children);
    forall raw | ExplicitYields(children, tag, raw)
      ensures raw == plain[k].text
    {
      var i :| IsFirstNamed(plain, tag, i) && raw == plain[i].text;
      FirstNamedUnique(plain, tag, i, k);
    }
  }

  /** The explicit tier does not apply when the first child with the active tag is empty or absent. */
  lemma ExplicitTierSkipped(children: seq<Node>, tag: string)
    requires var first := FirstNamed(ChildElements(children), tag);
      first.None? || ChildElements(children)[first.value].text == ""
    ensures !ExplicitApplies(children, tag)
  {
    var plain := ChildElements(children);
    if i :| IsFirstNamed(plain, tag, i) && plain[i].text != "" {
      FirstNamedUnique(plain, tag, i, FirstNamed(plain, tag).value);
    }
  }

  /** The default tier yields exactly the text of the first descendant with the default tag, and nothing
      when there is none. */
  lemma DefaultTier(children: seq<Node>, defaultTag: string)
    ensures var all, first := Descendants(children), FirstNamed(Descendants(children), defaultTag);
      && (first.Some? ==> DefaultYields(children, defaultTag, all[first.value].text))
      && forall raw :: DefaultYields(children, defaultTag, raw) ==> first.Some? && raw == all[first.value].text
  {
    var all := Descendants(children);
    forall raw | DefaultYields(children, defaultTag, raw)
      ensures FirstNamed(all, defaultTag).Some? && raw == all[FirstNamed(all, defaultTag).value].text
    {
      var i :| IsFirstNamed(all, defaultTag, i) && raw == all[i].text;
      FirstNamedUnique(all, defaultTag, i, FirstNamed(all, defaultTag).value);
    }
  }

  /** The block tier yields exactly what ComposeBlock composes, and nothing when ComposeBlock fails. */
  lemma BlockTier(id: string, children: seq<Node>, tag: string)
    requires HasBlock(children)
    ensures var b := ComposeBlock(id, children, tag);
      && (b.Ok? ==> b.value.Some? && BlockYields(children, tag, b.value.value))
      && forall raw :: BlockYields(children, tag, raw) ==> b == Ok(Some(raw))
  {
    var parts := BlockContents(children);
    forall raw | BlockYields(children, tag, raw)
      ensures ComposeBlock(id, children, tag) == Ok(Some(raw))
    {
      var i, j :| IsFirstNamed(parts, CommonName, i) && IsFirstNamed(parts, tag, j)
        && raw == parts[i].text + " " + parts[j].text;
      FirstNamedUnique(parts, CommonName, i, FirstNamed(parts, CommonName).value);
      FirstNamedUnique(parts, tag, j, FirstNamed(parts, tag).value);
    }
  }

  /** Raw text of one entry: the composed block, else the first child named with the active tag when its
      text is non-empty, else the first descendant named with the default tag. */
  function ResolveEntry(entry: Script, tag: string, defaultTag: string): (r: Result<string, Fault>)
    ensures r.Ok? ==> EntryYields(entry.children, tag, defaultTag, r.value)
    ensures forall raw :: EntryYields(entry.children, tag, defaultTag, raw) ==> r == Ok(raw)
    ensures r.Err? ==>
      r.error in {MissingCommon(entry.id), MissingVendor(entry.id, tag), MissingDefaultVariant(entry.id, defaultTag)}
    ensures r == Err(MissingCommon(entry.id)) <==> CommonMissing(entry.children)
    ensures r == Err(MissingVendor(entry.id, tag)) <==> VendorMissing(entry.children, tag)
    ensures r == Err(MissingDefaultVariant(entry.id, defaultTag)) <==>
      && !HasBlock(entry.children)
      && !ExplicitApplies(entry.children, tag)
      && forall i :: 0 <= i < |Descendants(entry.children)| ==> Descendants(entry.children)[i].name != defaultTag
  {
    var children := entry.children;
    if HasBlock(children) then
      BlockTier(entry.id, children, tag);
      match ComposeBlock(entry.id, children, tag)
      case Err(f) => Err(f)
      case Ok(b) => Ok(b.value)
    else
      var plain, all := ChildElements(children), Descendants(children);
      var explicit := FirstNamed(plain, tag);
      if explicit.Some? && plain[explicit.value].text != "" then
        ExplicitTier(children, tag, explicit.value);
        Ok(plain[explicit.value].text)
      else
        ExplicitTierSkipped(children, tag);
        DefaultTier(children, defaultTag);
        match FirstNamed(all, defaultTag)
        case None => Err(MissingDefaultVariant(entry.id, defaultTag))
        case Some(i) => Ok(all[i].text)
  }

  /** The raw text for `id` before placeholder rewriting: the entry must be unique, the root must declare
      a default tag, and the entry is then resolved tier by tier. */
  function RawSql(c: Catalog, tag: string, id: string): (r: Result<string, Fault>)
    ensures r == Err(DuplicateScriptId(id)) <==>
      exists k, m :: 0 <= k < m < |c.scripts| && c.scripts[k].id == id && c.scripts[m].id == id
    ensures r == Err(UndefinedScriptId(id)) <==> forall k :: 0 <= k < |c.scripts| ==> c.scripts[k].id != id
    ensures r == Err(MissingDefaultAttribute) <==> c.defaultTag.None? && exists k :: UniqueEntry(c.scripts, id, k)
    ensures r.Ok? ==> Resolves(c, tag, id, r.value)
    ensures forall raw :: Resolves(c, tag, id, raw) ==> r == Ok(raw)
    ensures forall k :: UniqueEntry(c.scripts, id, k) && c.defaultTag.Some? ==>
      r == ResolveEntry(c.scripts[k], tag, c.defaultTag.value)
  {
    var matches := ScriptsWithId(c.scripts, id);
    if |matches| > 1 then Err(DuplicateScriptId(id))
    else if |matches| == 0 then Err(UndefinedScriptId(id))
    else if c.defaultTag.None? then
      SingleMatchIsUnique(c.scripts, id);
      Err(MissingDefaultAttribute)
    else
      SingleMatchIsUnique(c.scripts, id);
      ResolveEntry(matches[0], tag, c.defaultTag.value)
  }

  /** The SQL for `id` on the engine's provider: the raw text of whichever tier applies, with its
      parameter markers rewritten. */
  function GetSql(e: Engine, c: Catalog, id: string): (r: Result<string, Fault>)
    ensures r == Err(DuplicateScriptId(id)) <==>
      exists k, m :: 0 <= k < m < |c.scripts| && c.scripts[k].id == id && c.scripts[m].id == id
    ensures r == Err(UndefinedScriptId(id)) <==> forall k :: 0 <= k < |c.scripts| ==> c.scripts[k].id != id
    ensures r.Ok? ==> exists raw :: Resolves(c, e.dialect.tag, id, raw) && r.value == Parse(e, raw)
    ensures forall raw :: Resolves(c, e.dialect.tag, id, raw) ==> r == Ok(Parse(e, raw))
    ensures r == Err(MissingDefaultAttribute) <==> c.defaultTag.None? && exists k :: UniqueEntry(c.scripts, id, k)
    ensures r.Err? ==> r == RawSql(c, e.dialect.tag, id)
  {
    var raw :- RawSql(c, e.dialect.tag, id);
    Ok(Parse(e, raw))
  }

  /** The isolation step on resolved SQL: only SqlClient with ReadUncommitted gains the prefix statement;
      the resolved SQL always ends the output. */
  function Isolate(provider: string, mode: IsolationLevel, sql: string): (r: string)
    ensures |sql| <= |r| && r[|r| - |sql|..] == sql
    ensures r == sql <==> !(provider == SqlClient && mode == ReadUncommitted)
    ensures r != sql ==> ReadUncommittedPrefix <= r && |r| == |ReadUncommittedPrefix| + |sql|
  {
    if provider == SqlClient && mode == ReadUncommitted then
      var r := ReadUncommittedPrefix + sql;
      assert r[|ReadUncommittedPrefix|..] == sql;
      assert r != sql by {
        assert |r| > |sql|;
      }
      r
    else
      sql
  }

  /** GetSql with an isolation level: the same errors as GetSql, and its SQL passed through Isolate. */
  function GetSqlIsolated(e: Engine, c: Catalog, id: string, mode: IsolationLevel): (r: Result<string, Fault>)
    ensures r.Ok? <==> GetSql(e, c, id).Ok?
    ensures r.Err? ==> r.error == GetSql(e, c, id).error
    ensures r.Ok? ==> r.value == Isolate(e.provider, mode, GetSql(e, c, id).value)
  {
    var sql :- GetSql(e, c, id);
    Ok(Isolate(e.provider, mode, sql))
  }
}

=== FILE: results.dfy ===
/** `Option` stands for a node reference that may be null; `Result` carries either the resolved value
    or the error the original raises as an exception. */
module Results {

  /** A value that may be absent: the model's stand-in for a null node reference. */
  datatype Option<+T> = None | Some(value: T)

  /** Either a value or the error the original code raises as an exception. */
  datatype Result<+T, +E> = Ok(value: T) | Err(error: E) {

    predicate IsFailure() {
      Err?
    }

    function PropagateFailure<U>(): Result<U, E>
      requires Err?
    {
      Err(error)
    }

    function Extract(): T
      requires Ok?
    {
      value
    }
  }
}
